=== FILE: README.md ===
# Oyena request dispatch, modelled in Dafny

Oyena plugs two lifecycles into a Jakarta Faces runtime so that selected requests go to
annotated handler methods instead of the normal view pipeline:

- the **Action lifecycle** matches the request to an action method, runs it, and then
  lets the host's default lifecycle render the view;
- the **REST lifecycle** matches the request to a REST method, runs it through the
  **default REST method executor**, stores the return value as an attribute of the `FacesContext`, and
  in its render phase picks a **response writer** by the response content type
  (defaulting to `application/json`) to serialise it.

A deprecated **Action lifecycle factory** decorates the host's lifecycle factory so that
one reserved lifecycle id answers with the Action lifecycle.

The model is functional. A request is an immutable `Faces.Context` (response-complete
flag, the error sent, the content type, the `FacesContext`'s own attribute map (which is
not the request's attribute map) and a log of collaborator
calls). Each phase returns an `Outcome`: the context as it stands afterwards plus either
a value or the Java exception that escaped, so a failing phase still shows what it did
and did not change. Code that is not part of this model enters in one of these places:

- fields of `Rest.RestLifecycle`: the mapping matcher, the method executor and the
  response writer as functions, and the container's writer beans (all of them, and the
  `@Default` ones) as sequences;
- function-typed fields of `Action.ActionLifecycle`: the mapping matcher, the action
  method executor and the default lifecycle's render;
- function-typed fields of `RestExecutor.Collaborators`, the default executor's view of
  CDI bean selection, the parameter producer, `Instance.get()` and `Method.invoke`;
- `ActionFactory.WrappedFactory`, the decorated host factory's get, add and ids
  operations, passed to each factory operation;
- per-call arguments, for answers that may differ from call to call: what
  `responseSendError` throws (`sendErrorThrows`), what the host lifecycle factory answers
  for the default lifecycle (`factoryAnswer`), and the bean manager's enumeration of
  lifecycle beans in the factory's constructor (`beans`).

Modules and files:

| file | module | models |
|---|---|---|
| `wrappers.dfy` | `Wrappers` | `Option` (Java null) and `Result` (value or thrown exception) |
| `faces.dfy` | `Faces` | the Faces context, exceptions, and the shared "send 404, complete" step |
| `rest_lifecycle.dfy` | `Rest` | `RestLifecycle`: execute, render, writer selection, phase listeners |
| `rest_executor.dfy` | `RestExecutor` | `DefaultRestMethodExecutor.execute` |
| `action_lifecycle.dfy` | `Action` | `ActionLifecycle`: execute, render, lazy default lifecycle, phase listeners |
| `action_lifecycle_factory.dfy` | `ActionFactory` | `ActionLifecycleFactory`: constructor search, get/add lifecycle, ids |
| `dispatch.dfy` | `Dispatch` | the REST lifecycle wired to the default executor, end to end |

In these places the model follows the code as written:

- Bean selection in the executor happens before the `try`, so its failure is not wrapped
  in a `FacesException`; only failures from argument production, `Instance.get()` and the
  invocation are.
- When no writer carries the requested content type and there is no `@Default` writer,
  selection fails with `NoSuchElementException` from the iterator, whether or not other
  tagged writers exist.
- The Action lifecycle discards whatever its action method executor returns; only the
  context the executor leaves and whether it throws reach the phase's outcome.
- If the host factory answers null for the default lifecycle, the Action render phase
  throws `NullPointerException`, and the null is not cached, so the next render asks
  the factory again.
- Only an `IOException` from `responseSendError` is wrapped in a `FacesException`; any
  other exception from it escapes as it is.
- The factory's `getLifecycle` compares ids with `ActionLifecycle.class.getName()`, where
  `ActionLifecycle` is the class in the factory's own package
  (`com.manorrock.oyena.action`); its name equals `LIFECYCLE_ID`, so the model uses one
  constant. That class is not part of this model.

## Model

| member | source | states |
|---|---|---|
| `Faces.SendNotFound` | rest/src/main/java/com/manorrock/oyena/rest/RestLifecycle.java:100-105 | the 404 send with the given message is attempted, and logged, on both paths; on success the error is 404 with that message and the response is complete, attributes and content type unchanged; when the send throws, the response is not marked complete, an `IOException` becomes a `FacesException` around it and any other exception escapes unwrapped |
| `Rest.Execute` | rest/src/main/java/com/manorrock/oyena/rest/RestLifecycle.java:92-107 | no match: exactly the shared 404 step with "Unable to match request" (send attempted and logged, response complete, no attribute written, executor not run, `IOException` while sending becomes `FacesException(ioe)`); a match runs the executor once on the context and keeps the context it returns: the lifecycle does not complete the response or touch the error, content type or log, and on success stores exactly the returned value under `com.manorrock.oyena.rest.RestResult` leaving every other attribute as the executor left it; an executor failure escapes and nothing is stored |
| `Rest.HandlerCompletedResponseIsNotRendered` | rest/src/main/java/com/manorrock/oyena/rest/RestLifecycle.java:171-173 | when the handler itself completed the response, the render phase after execute does nothing |
| `Rest.FindTagged` | rest/src/main/java/com/manorrock/oyena/rest/RestLifecycle.java:134-142 | returns the position of the first writer whose content-type tag equals the requested type exactly, or reports that no writer (untagged ones included) matches |
| `Rest.GetResponseWriter` | rest/src/main/java/com/manorrock/oyena/rest/RestLifecycle.java:130-150 | the first writer tagged with exactly the requested type; with none, the first `@Default` writer; with no default writer, `NoSuchElementException` |
| `Rest.Render` | rest/src/main/java/com/manorrock/oyena/rest/RestLifecycle.java:171-182 | a completed response is left exactly as it was; otherwise the content type becomes `application/json` when unset and is kept when set, the writer is selected for that content type, one write is logged, and selection or write failures escape unchanged |
| `Rest.AddPhaseListener` | rest/src/main/java/com/manorrock/oyena/rest/RestLifecycle.java:82-84 | adding a phase listener leaves the lifecycle unchanged |
| `Rest.RemovePhaseListener` | rest/src/main/java/com/manorrock/oyena/rest/RestLifecycle.java:161-163 | removing a phase listener leaves the lifecycle unchanged |
| `Rest.GetPhaseListeners` | rest/src/main/java/com/manorrock/oyena/rest/RestLifecycle.java:119-122 | the reported listener array is empty |
| `Rest.ListenerCallsIgnored` | rest/src/main/java/com/manorrock/oyena/rest/RestLifecycle.java:119-122 | after any sequence of add/remove calls the lifecycle is the same and still reports no listeners |
| `Rest.UnmatchedRequestIsNotRendered` | rest/src/main/java/com/manorrock/oyena/rest/RestLifecycle.java:99-102 | after an unmatched execute the render phase does nothing: no content type, no writer, no write |
| `Rest.RenderTwiceOnCompleteIsNoop` | rest/src/main/java/com/manorrock/oyena/rest/RestLifecycle.java:172-173 | rendering a completed response twice writes nothing and changes nothing |
| `Rest.DefaultsToJsonWriter` | rest/src/main/java/com/manorrock/oyena/rest/RestLifecycle.java:174-180 | with no content type and a JSON-tagged writer registered, render sets `application/json` and writes once with the first JSON-tagged writer |
| `Rest.KeepsExplicitContentType` | rest/src/main/java/com/manorrock/oyena/rest/RestLifecycle.java:175-180 | a content type already set is kept, writer selection uses that exact string, a selection failure escapes, and a successful selection is logged as one write by the selected writer |
| `RestExecutor.Arguments` | rest/src/main/java/org/omnifaces/oyena/rest/DefaultRestMethodExecutor.java:63-71 | producing the first n arguments succeeds iff every one of them produces a value; then there are n arguments and argument i is the producer's value for parameter i's type and annotations; otherwise the error is that of the first failing parameter |
| `RestExecutor.Wrap` | rest/src/main/java/org/omnifaces/oyena/rest/DefaultRestMethodExecutor.java:74-76 | a success passes through; a failure becomes one `FacesException` whose cause is the original exception |
| `RestExecutor.Execute` | rest/src/main/java/org/omnifaces/oyena/rest/DefaultRestMethodExecutor.java:58-78 | a bean-selection failure escapes unwrapped, the context untouched, and nothing else runs; a producer failure at k means parameters 0..k were produced in order, none after, no instance obtained, no invocation, the context untouched, and the result is `FacesException(cause)`; otherwise exactly N producer calls precede `Instance.get()`, the invoker receives the N produced values in order with the context, and the outcome is the context the invocation left with its value, or `FacesException` around its or `get`'s failure |
| `RestExecutor.ZeroParameterHandler` | rest/src/main/java/org/omnifaces/oyena/rest/DefaultRestMethodExecutor.java:63-73 | a handler without parameters is invoked with an empty argument sequence, and the phase's outcome is that invocation's, failure wrapped |
| `Action.Execute` | action/src/main/java/org/omnifaces/oyena/action/ActionLifecycle.java:91-104 | no match: exactly the shared 404 step with "Unable to match action" (send attempted and logged, response complete; `IOException` while sending becomes `FacesException(ioe)`); a match runs the executor exactly once and the outcome carries the context it returned, unchanged by the lifecycle (which does not complete the response), succeeding iff the executor did and otherwise with the executor's exception |
| `Action.GetDefaultLifecycle` | action/src/main/java/org/omnifaces/oyena/action/ActionLifecycle.java:118-124 | the host factory is consulted exactly when the cache is null and its answer, null or exception included, is returned; a non-null cache is returned and kept; after an answer the cache holds it, after an exception the cache stays null |
| `Action.Render` | action/src/main/java/org/omnifaces/oyena/action/ActionLifecycle.java:160-165 | a completed response: no lookup, no delegation, nothing changes; otherwise a factory lookup is logged only when the cache was empty, the new cache is the lookup's, and the phase's outcome is exactly that of one render by the default lifecycle (its context and its exception); a null default lifecycle throws `NullPointerException` and an exception from the factory escapes, both after the logged lookup and with the cache still null |
| `Action.CachedLookupIsStable` | action/src/main/java/org/omnifaces/oyena/action/ActionLifecycle.java:118-124 | a second lookup after one that found a lifecycle returns the same lifecycle and state without consulting the factory, whatever it would now answer; after a null or an exception it consults again and returns the new answer |
| `Action.SecondRenderUsesCache` | action/src/main/java/org/omnifaces/oyena/action/ActionLifecycle.java:160-165 | once a render found a default lifecycle, a later render delegates to the same one without a factory lookup, whatever the factory would then answer, and its outcome is that lifecycle's render |
| `Action.AddPhaseListener` | action/src/main/java/org/omnifaces/oyena/action/ActionLifecycle.java:81-83 | adding a phase listener leaves the lifecycle state unchanged |
| `Action.RemovePhaseListener` | action/src/main/java/org/omnifaces/oyena/action/ActionLifecycle.java:150-152 | removing a phase listener leaves the lifecycle state unchanged |
| `Action.GetPhaseListeners` | action/src/main/java/org/omnifaces/oyena/action/ActionLifecycle.java:136-139 | the reported listener array is empty |
| `Action.ListenerCallsIgnored` | action/src/main/java/org/omnifaces/oyena/action/ActionLifecycle.java:136-139 | after any sequence of add/remove calls the state, cache included, is unchanged and no listeners are reported |
| `Action.UnmatchedActionIsNotRendered` | action/src/main/java/org/omnifaces/oyena/action/ActionLifecycle.java:96-99 | after an unmatched execute the render phase neither looks up nor runs the default lifecycle |
| `Action.ActionCompletedResponseIsNotRendered` | action/src/main/java/org/omnifaces/oyena/action/ActionLifecycle.java:161-164 | when the action method itself completed the response, the render phase after execute neither looks up nor runs the default lifecycle |
| `ActionFactory.Create` | action/src/main/java/com/manorrock/oyena/action/ActionLifecycleFactory.java:71-89 | a `NamingException` leaves the slot empty, any other lookup failure escapes; otherwise the slot holds the first candidate named `LIFECYCLE_ID`, stays empty when no candidate has that name, and a candidate without `@Named` reached before a match throws `NullPointerException` |
| `ActionFactory.GetLifecycle` | action/src/main/java/com/manorrock/oyena/action/ActionLifecycleFactory.java:108-117 | the reserved id is answered from the slot, null included, and never fails; every other id gets exactly the wrapped factory's answer or its exception |
| `ActionFactory.AddLifecycle` | action/src/main/java/com/manorrock/oyena/action/ActionLifecycleFactory.java:97-100 | succeeds iff the wrapped factory's registration does; then the registration reached the wrapped factory and the held Action lifecycle is unchanged; otherwise the wrapped factory's exception escapes |
| `ActionFactory.GetLifecycleIds` | action/src/main/java/com/manorrock/oyena/action/ActionLifecycleFactory.java:124-130 | the wrapped ids in their order followed by the reserved id: one longer than the wrapped list, the id appended even when already present; an exception from the wrapped factory escapes |
| `ActionFactory.ReservedIdIgnoresWrapped` | action/src/main/java/com/manorrock/oyena/action/ActionLifecycleFactory.java:110-112 | the reserved id's answer does not depend on the wrapped factory at all |
| `ActionFactory.AddLifecycleKeepsReserved` | action/src/main/java/com/manorrock/oyena/action/ActionLifecycleFactory.java:98-100 | no successful registration, not even under the reserved id, changes the reserved id's answer; other ids see the wrapped factory after the registration |
| `Dispatch.ProducerFailureFailsExecute` | rest/src/main/java/org/omnifaces/oyena/rest/DefaultRestMethodExecutor.java:65-75 | in the REST lifecycle with the default executor, a producer failure at k fails execute with `FacesException` around the producer's exception, stores no result and leaves the context as the executor received it |
| `Dispatch.SelectionFailureIsNotWrapped` | rest/src/main/java/org/omnifaces/oyena/rest/DefaultRestMethodExecutor.java:59-62 | in the REST lifecycle with the default executor, a bean-selection failure reaches the host unwrapped and leaves the context as the executor received it |
| `Dispatch.JsonRoundTrip` | rest/src/main/java/com/manorrock/oyena/rest/RestLifecycle.java:94-98 | a matched request whose handler returns v and leaves the response incomplete without content type: execute succeeds and stores v under the result key, and the following render sets `application/json` and writes once with the first JSON-tagged writer after whatever the handler logged |

## Left out

- Rest.Execute, Action.Execute: the matchers are total; an exception thrown by
  `restMappingMatcher.match` or `actionMappingMatcher.match`, which would escape execute
  before anything else happens, is not modelled.
- Route matching (path patterns, path variables, tie-breaking, HTTP verb filtering) and
  parameter conversion: the matcher and producer code is not part of this model; both are
  uninterpreted functions (`matcher`, `produce`).
- CDI, JNDI and reflection are inputs: bean selection and `Instance.get()` are functions
  returning a `Result`, and `Method.invoke` is a function from the context to an `Outcome`; the constructor's bean-manager lookup
  is a `Result` over the enumerated candidates. `Method.invoke`'s own wrapping of a handler
  exception in `InvocationTargetException` is part of the abstract invoker.
- Java `Set` enumeration order is unspecified; writer and candidate sets are sequences in
  the container's enumeration order, and "first" means first in that order.
- Rest.GetResponseWriter: instantiating the selected writer through
  `CDI.current().select(...).get()` is assumed to yield the selected bean; a failure there
  is not modelled.
- ActionFactory.Create: the `(ActionLifecycle)` cast and an ambiguous or unsatisfied
  `CDI.current().select(named).get()` are not modelled; each candidate carries the instance
  CDI yields for it.
- Rest.Render: the response writer is seen only through whether it throws; what it does to
  the context besides writing the body (headers, say) is not modelled.
- Faces.SendNotFound: when `responseSendError` throws, the error field is left as it was;
  whether a failing send has already set the status depends on the host and is not modelled.
- ActionFactory.GetLifecycle: a null id, for which `lifecycleId.equals(...)` throws
  `NullPointerException`, is not modelled; ids are strings and never null.
- The bytes written by `responseSendError` and by a response writer are not modelled: the
  error sent is a context field and a write is a log entry.
- Failures of the host's own `getExternalContext` and content-type
  getters and setters are not modelled.
- The `synchronized` modifier on `getDefaultLifecycle` and any concurrency: the model is
  sequential.
- `TemplateHttpServletResponse`: a thin adapter whose behaviour depends on host classes that
  are not part of this model.

=== FILE: action_lifecycle.dfy ===
/** The Action lifecycle (`org.omnifaces.oyena.action.ActionLifecycle`): execute matches
    the request and runs the action method; render hands the request to the host's
    default lifecycle, which is looked up lazily and cached.
 */
module Action {
  import opened Wrappers
  import opened Faces

  const NotFoundMessage := "Unable to match action"

  /** The lifecycle's collaborators. `M` is the matcher's match type, left abstract.
      The executor runs the action method on the live context and returns the context
      as the method left it; the lifecycle discards the returned value. `defaultRender`
      is the render phase of a host lifecycle, which may likewise change the context. */
  datatype ActionLifecycle<!M> = ActionLifecycle(
    matcher: Context -> Option<M>,
    executor: (Context, M) -> Outcome<Value>,
    defaultRender: (LifecycleRef, Context) -> Outcome<()>)

  /** The lifecycle's one mutable field: the cached default lifecycle, null until found. */
  datatype ActionState = ActionState(defaultLifecycle: Option<LifecycleRef>)

  /** What `getDefaultLifecycle` leaves behind: the new state, the lifecycle it returns
      (possibly null) or the exception the host factory threw, and whether it consulted
      the host factory. */
  datatype Lookup = Lookup(state: ActionState, lifecycle: Result<Option<LifecycleRef>, Throwable>, consulted: bool)

  /** What render leaves behind: the lifecycle's state and the phase outcome. */
  datatype Rendered = Rendered(state: ActionState, outcome: Outcome<()>)

  /** Execute phase. No match: send 404 and complete the response. A match: run the
      executor exactly once; the lifecycle adds nothing to the context the executor
      left (it does not complete the response), and an executor failure escapes
      unchanged. */
  function Execute<M>(lc: ActionLifecycle<M>, ctx: Context, sendErrorThrows: Option<Throwable>): (r: Outcome<()>)
    ensures lc.matcher(ctx).None? ==> r == SendNotFound(ctx, NotFoundMessage, sendErrorThrows)
    ensures lc.matcher(ctx).None? && sendErrorThrows.None? ==>
              && r.result.Success?
              && r.ctx.error == Some(SentError(404, "Unable to match action"))
              && r.ctx.responseComplete
              && r.ctx.attributes == ctx.attributes
              && r.ctx.log == ctx.log + [ErrorSendCalled(SentError(404, "Unable to match action"))]
    ensures lc.matcher(ctx).None? && sendErrorThrows.Some? && sendErrorThrows.value.IOException? ==>
              r == Outcome(ctx.Record(ErrorSendCalled(SentError(404, "Unable to match action"))), Failure(FacesException(sendErrorThrows.value)))
    ensures lc.matcher(ctx).Some? ==>
              var ran := lc.executor(ctx.Record(ExecutorCalled), lc.matcher(ctx).value);
              && r.ctx == ran.ctx
              && (ran.result.Success? <==> r.result.Success?)
              && (r.result.Failure? ==> r.result.error == ran.result.error)
  {
    match lc.matcher(ctx)
    case Some(m) =>
      var ran := lc.executor(ctx.Record(ExecutorCalled), m);
      (match ran.result
       case Success(_) => Outcome(ran.ctx, Success(()))
       case Failure(e) => Outcome(ran.ctx, Failure(e)))
    case None =>
      SendNotFound(ctx, NotFoundMessage, sendErrorThrows)
  }

  /** `getDefaultLifecycle`: the host factory is consulted only while the cache is
      null, and whatever it answers becomes the cache; when it throws, the exception
      escapes and the cache stays null. `factoryAnswer` is what obtaining the host
      lifecycle factory and asking it for the default lifecycle id would yield on this
      call: a lifecycle, null, or the exception either step threw. */
  function GetDefaultLifecycle(st: ActionState, factoryAnswer: Result<Option<LifecycleRef>, Throwable>): (r: Lookup)
    ensures r.consulted <==> st.defaultLifecycle.None?
    ensures st.defaultLifecycle.Some? ==> r.state == st && r.lifecycle == Success(st.defaultLifecycle)
    ensures st.defaultLifecycle.None? ==> r.lifecycle == factoryAnswer
    ensures r.lifecycle.Success? ==> r.state.defaultLifecycle == r.lifecycle.value
    ensures r.lifecycle.Failure? ==> r.state == st
  {
    if st.defaultLifecycle.None? then
      match factoryAnswer
      case Success(l) => Lookup(ActionState(l), factoryAnswer, true)
      case Failure(_) => Lookup(st, factoryAnswer, true)
    else
      Lookup(st, Success(st.defaultLifecycle), false)
  }

  /** Render phase. On a completed response: nothing, and no lookup. Otherwise: fetch
      the default lifecycle (logging a factory lookup when the cache was empty) and
      delegate to its render once, whose outcome, exception included, becomes the
      phase's outcome; a null default lifecycle makes the call throw
      `NullPointerException`, and an exception from the factory escapes. */
  function Render<M>(lc: ActionLifecycle<M>, st: ActionState, ctx: Context,
                     factoryAnswer: Result<Option<LifecycleRef>, Throwable>): (r: Rendered)
    ensures ctx.responseComplete ==> r == Rendered(st, Outcome(ctx, Success(())))
    ensures !ctx.responseComplete ==> r.state == GetDefaultLifecycle(st, factoryAnswer).state
    ensures !ctx.responseComplete && st.defaultLifecycle.Some? ==>
              var l := st.defaultLifecycle.value;
              r == Rendered(st, lc.defaultRender(l, ctx.Record(DefaultRendered(l))))
    ensures !ctx.responseComplete && st.defaultLifecycle.None? && factoryAnswer == Success(None) ==>
              r == Rendered(st, Outcome(ctx.Record(DefaultLifecycleLookup), Failure(NullPointerException)))
    ensures !ctx.responseComplete && st.defaultLifecycle.None? && factoryAnswer.Failure? ==>
              r == Rendered(st, Outcome(ctx.Record(DefaultLifecycleLookup), Failure(factoryAnswer.error)))
    ensures forall l :: !ctx.responseComplete && st.defaultLifecycle.None? && factoryAnswer == Success(Some(l)) ==>
              && r.state == ActionState(Some(l))
              && r.outcome == lc.defaultRender(l, ctx.Record(DefaultLifecycleLookup).Record(DefaultRendered(l)))
  {
    if ctx.responseComplete then Rendered(st, Outcome(ctx, Success(())))
    else
      var lookup := GetDefaultLifecycle(st, factoryAnswer);
      var looked := if lookup.consulted then ctx.Record(DefaultLifecycleLookup) else ctx;
      match lookup.lifecycle
      case Failure(e) => Rendered(lookup.state, Outcome(looked, Failure(e)))
      case Success(None) => Rendered(lookup.state, Outcome(looked, Failure(NullPointerException)))
      case Success(Some(l)) => Rendered(lookup.state, lc.defaultRender(l, looked.Record(DefaultRendered(l))))
  }

  /** Once the cache holds a lifecycle, later lookups return the same one and leave the
      state as it is, whatever the factory would now answer, without consulting it;
      while the factory has answered null or thrown, the next lookup consults it again
      and takes its new answer. */
  lemma CachedLookupIsStable(st: ActionState, answer1: Result<Option<LifecycleRef>, Throwable>,
                             answer2: Result<Option<LifecycleRef>, Throwable>)
    ensures var first := GetDefaultLifecycle(st, answer1);
            var found := first.lifecycle.Success? && first.lifecycle.value.Some?;
            var second := GetDefaultLifecycle(first.state, answer2);
            && (found ==> second.lifecycle == first.lifecycle && second.state == first.state)
            && (!found ==> second.lifecycle == answer2)
            && (found <==> !second.consulted)
  {
  }

  /** Two renders of incomplete responses: once the first found a lifecycle, the second
      delegates to that same lifecycle without a lookup, whatever the factory would
      answer by then. */
  lemma SecondRenderUsesCache<M>(lc: ActionLifecycle<M>, st: ActionState, ctx1: Context, ctx2: Context,
                                  answer1: Result<Option<LifecycleRef>, Throwable>,
                                  answer2: Result<Option<LifecycleRef>, Throwable>)
    requires !ctx1.responseComplete && !ctx2.responseComplete
    requires st.defaultLifecycle.Some? || (answer1.Success? && answer1.value.Some?)
    ensures var first := Render(lc, st, ctx1, answer1);
            && first.state.defaultLifecycle.Some?
            && var l := first.state.defaultLifecycle.value;
               Render(lc, first.state, ctx2, answer2) == Rendered(first.state, lc.defaultRender(l, ctx2.Record(DefaultRendered(l))))
  {
  }

  /** An action method that completed the response itself leaves nothing for render
      to do: no lookup, no delegation. */
  lemma ActionCompletedResponseIsNotRendered<M>(lc: ActionLifecycle<M>, st: ActionState, ctx: Context, factoryAnswer: Result<Option<LifecycleRef>, Throwable>)
    requires lc.matcher(ctx).Some?
    requires lc.executor(ctx.Record(ExecutorCalled), lc.matcher(ctx).value).ctx.responseComplete
    ensures var e := Execute(lc, ctx, None);
            Render(lc, st, e.ctx, factoryAnswer) == Rendered(st, Outcome(e.ctx, Success(())))
  {
  }

  /** Registering a phase listener is ignored. */
  function AddPhaseListener(st: ActionState, listener: PhaseListener): (r: ActionState)
    ensures r == st
  {
    st
  }

  /** Removing a phase listener is ignored. */
  function RemovePhaseListener(st: ActionState, listener: PhaseListener): (r: ActionState)
    ensures r == st
  {
    st
  }

  /** The lifecycle reports no phase listeners. */
  function GetPhaseListeners(st: ActionState): (r: seq<PhaseListener>)
    ensures |r| == 0
  {
    []
  }

  /** The lifecycle state after the host made `calls`, in order. */
  function ApplyListenerCalls(st: ActionState, calls: seq<ListenerCall>): ActionState
    decreases |calls|
  {
    if |calls| == 0 then st
    else
      var next := match calls[0]
        case AddListener(l) => AddPhaseListener(st, l)
        case RemoveListener(l) => RemovePhaseListener(st, l);
      ApplyListenerCalls(next, calls[1..])
  }

  /** Whatever add/remove calls came first, the state (including the cached default
      lifecycle) is unchanged and no listeners are reported. */
  lemma {:induction false} ListenerCallsIgnored(st: ActionState, calls: seq<ListenerCall>)
    ensures ApplyListenerCalls(st, calls) == st
    ensures GetPhaseListeners(ApplyListenerCalls(st, calls)) == []
    decreases |calls|
  {
    if |calls| > 0 {
      ListenerCallsIgnored(st, calls[1..]);
    }
  }

  /** An unmatched action leaves a completed response, so render neither looks up nor
      runs the default lifecycle. */
  lemma UnmatchedActionIsNotRendered<M>(lc: ActionLifecycle<M>, st: ActionState, ctx: Context, factoryAnswer: Result<Option<LifecycleRef>, Throwable>)
    requires lc.matcher(ctx).None?
    ensures var e := Execute(lc, ctx, None);
            Render(lc, st, e.ctx, factoryAnswer) == Rendered(st, Outcome(e.ctx, Success(())))
  {
  }
}

=== FILE: action_lifecycle_factory.dfy ===
/** The Action lifecycle factory (`com.manorrock.oyena.action.ActionLifecycleFactory`):
    a decorator over the host's lifecycle factory that answers one reserved lifecycle
    id from its own slot and passes every other request to the factory it wraps.
 */
module ActionFactory {
  import opened Wrappers
  import opened Faces

  /** The reserved id: both the factory's `LIFECYCLE_ID` and the class name of the
      Action lifecycle it compares ids against. */
  const LifecycleId := "com.manorrock.oyena.action.ActionLifecycle"

  /** A `Lifecycle` bean the container reports: the value of the `@Named` annotation on
      its class (null when the class has none), and the instance CDI yields for it. */
  datatype Candidate = Candidate(named: Option<string>, instance: LifecycleRef)

  /** The wrapped host factory's operations over its own state `W`; each may throw. */
  datatype WrappedFactory<!W> = WrappedFactory(
    get: (W, string) -> Result<Option<LifecycleRef>, Throwable>,
    ids: W -> Result<seq<string>, Throwable>,
    add: (W, string, LifecycleRef) -> Result<W, Throwable>)

  /** The decorator: the wrapped factory's state and the held Action lifecycle (null
      when the constructor found none). */
  datatype ActionLifecycleFactory<W> = ActionLifecycleFactory(wrapped: W, actionLifecycle: Option<LifecycleRef>)

  /** Candidates before position `k` all carry a name other than the reserved id. */
  ghost predicate ScannedPast(cs: seq<Candidate>, k: int) {
    forall j :: 0 <= j < k && j < |cs| ==> cs[j].named.Some? && cs[j].named.value != LifecycleId
  }

  /** `k` is the first candidate named with the reserved id. */
  ghost predicate FirstNamed(cs: seq<Candidate>, k: int) {
    0 <= k < |cs| && cs[k].named == Some(LifecycleId) && ScannedPast(cs, k)
  }

  /** The scan reaches candidate `k`, whose class has no `@Named`: reading its value
      throws `NullPointerException`. */
  ghost predicate UnnamedReached(cs: seq<Candidate>, k: int) {
    0 <= k < |cs| && cs[k].named.None? && ScannedPast(cs, k)
  }

  /** The constructor. `beans` is the container's enumeration of lifecycle beans
      qualified `@Named(LIFECYCLE_ID)`, or the exception the JNDI lookup of the bean
      manager threw. A `NamingException` is swallowed and leaves the slot null; any
      other failure escapes. The scan takes the first candidate named with the
      reserved id and stops there. */
  method Create<W>(wrapped: W, beans: Result<seq<Candidate>, Throwable>) returns (r: Result<ActionLifecycleFactory<W>, Throwable>)
    ensures beans.Failure? && beans.error.NamingException? ==> r == Success(ActionLifecycleFactory(wrapped, None))
    ensures beans.Failure? && !beans.error.NamingException? ==> r == Failure(beans.error)
    ensures beans.Success? && ScannedPast(beans.value, |beans.value|) ==>
              r == Success(ActionLifecycleFactory(wrapped, None))
    ensures forall k :: beans.Success? && FirstNamed(beans.value, k) ==>
              r == Success(ActionLifecycleFactory(wrapped, Some(beans.value[k].instance)))
    ensures forall k :: beans.Success? && UnnamedReached(beans.value, k) ==> r == Failure(NullPointerException)
  {
    if beans.Failure? {
      if beans.error.NamingException? {
        return Success(ActionLifecycleFactory(wrapped, None));
      }
      return Failure(beans.error);
    }
    var cs := beans.value;
    var slot: Option<LifecycleRef> := None;
    var i := 0;
    while i < |cs|
      invariant 0 <= i <= |cs|
      invariant ScannedPast(cs, i)
    {
      var named := cs[i].named;
      if named.None? {
        assert UnnamedReached(cs, i);
        return Failure(NullPointerException);
      }
      if named.value == LifecycleId {
        assert FirstNamed(cs, i);
        slot := Some(cs[i].instance);
        break;
      }
      i := i + 1;
    }
    r := Success(ActionLifecycleFactory(wrapped, slot));
  }

  /** `getLifecycle`: the reserved id is answered from the slot (possibly null) without
      asking the wrapped factory; every other id gets the wrapped factory's answer, or
      its exception. */
  function GetLifecycle<W>(host: WrappedFactory<W>, f: ActionLifecycleFactory<W>, id: string): (r: Result<Option<LifecycleRef>, Throwable>)
    ensures id == LifecycleId ==> r == Success(f.actionLifecycle)
    ensures id != LifecycleId ==> r == host.get(f.wrapped, id)
  {
    if id == LifecycleId then Success(f.actionLifecycle) else host.get(f.wrapped, id)
  }

  /** `addLifecycle`: registration goes to the wrapped factory only; its exception
      escapes. */
  function AddLifecycle<W>(host: WrappedFactory<W>, f: ActionLifecycleFactory<W>, id: string, lifecycle: LifecycleRef): (r: Result<ActionLifecycleFactory<W>, Throwable>)
    ensures r.Success? <==> host.add(f.wrapped, id, lifecycle).Success?
    ensures r.Success? ==> r.value.actionLifecycle == f.actionLifecycle && r.value.wrapped == host.add(f.wrapped, id, lifecycle).value
    ensures r.Failure? ==> r.error == host.add(f.wrapped, id, lifecycle).error
  {
    var w :- host.add(f.wrapped, id, lifecycle);
    Success(f.(wrapped := w))
  }

  /** `getLifecycleIds`: copy the wrapped factory's ids in order, then append the
      reserved id, even when the wrapped list already holds it. An exception from the
      wrapped factory escapes. */
  method GetLifecycleIds<W>(host: WrappedFactory<W>, f: ActionLifecycleFactory<W>) returns (r: Result<seq<string>, Throwable>)
    ensures host.ids(f.wrapped).Failure? ==> r == Failure(host.ids(f.wrapped).error)
    ensures host.ids(f.wrapped).Success? ==>
              && r.Success?
              && |r.value| == |host.ids(f.wrapped).value| + 1
              && r.value[..|r.value| - 1] == host.ids(f.wrapped).value
              && r.value[|r.value| - 1] == LifecycleId
  {
    var answer := host.ids(f.wrapped);
    if answer.Failure? {
      return Failure(answer.error);
    }
    var wrappedIds := answer.value;
    var ids := [];
    var i := 0;
    while i < |wrappedIds|
      invariant 0 <= i <= |wrappedIds|
      invariant ids == wrappedIds[..i]
    {
      ids := ids + [wrappedIds[i]];
      i := i + 1;
    }
    r := Success(ids + [LifecycleId]);
  }

  /** Whether or how the wrapped factory answers, the reserved id gets the same answer. */
  lemma ReservedIdIgnoresWrapped<W>(host1: WrappedFactory<W>, host2: WrappedFactory<W>, f: ActionLifecycleFactory<W>)
    ensures GetLifecycle(host1, f, LifecycleId) == GetLifecycle(host2, f, LifecycleId)
  {
  }

  /** No successful registration, not even one under the reserved id, changes the
      reserved id's answer; other ids see the wrapped factory after the registration. */
  lemma AddLifecycleKeepsReserved<W>(host: WrappedFactory<W>, f: ActionLifecycleFactory<W>, id: string, lifecycle: LifecycleRef, query: string)
    requires AddLifecycle(host, f, id, lifecycle).Success?
    ensures GetLifecycle(host, AddLifecycle(host, f, id, lifecycle).value, LifecycleId) == GetLifecycle(host, f, LifecycleId)
    ensures query != LifecycleId ==>
              GetLifecycle(host, AddLifecycle(host, f, id, lifecycle).value, query) == host.get(host.add(f.wrapped, id, lifecycle).value, query)
  {
  }
}

=== FILE: dispatch.dfy ===
/** The REST pipeline end to end: the REST lifecycle wired to the default method
    executor, and what one request does through its execute and render phases.
 */
module Dispatch {
  import opened Wrappers
  import opened Faces
  import Rest
  import opened RestExecutor

  /** The REST lifecycle whose method executor is the default one. */
  function WithDefaultExecutor(
    matcher: Context -> Option<RestMappingMatch>,
    c: Collaborators,
    writers: seq<Rest.WriterBean>,
    defaultWriters: seq<Rest.WriterBean>,
    write: (Rest.WriterBean, Context) -> Option<Throwable>): Rest.RestLifecycle<RestMappingMatch>
  {
    Rest.RestLifecycle(matcher, (ctx, m) => ExecuteSpec(c, ctx, m), writers, defaultWriters, write)
  }

  /** A producer failure at parameter `k` fails the execute phase with one
      `FacesException` around the producer's exception; the handler does not run, so
      the context is left as the lifecycle handed it to the executor and no result is
      stored. */
  lemma ProducerFailureFailsExecute(
    matcher: Context -> Option<RestMappingMatch>, c: Collaborators, writers: seq<Rest.WriterBean>,
    defaultWriters: seq<Rest.WriterBean>, write: (Rest.WriterBean, Context) -> Option<Throwable>,
    ctx: Context, k: nat)
    requires matcher(ctx).Some?
    requires c.select(matcher(ctx).value.beanClass).Success?
    requires FirstFailure(c, ctx.Record(ExecutorCalled), matcher(ctx).value, k)
    ensures var called := ctx.Record(ExecutorCalled);
            Rest.Execute(WithDefaultExecutor(matcher, c, writers, defaultWriters, write), ctx, None)
            == Outcome(called, Failure(FacesException(Argument(c, called, matcher(ctx).value, k).error)))
  {
    var called := ctx.Record(ExecutorCalled);
    var m := matcher(ctx).value;
    var args := Arguments(c, called, m, |m.handler.parameters|);
    FirstFailureUnique(c, called, m, k);
    assert args.Failure? by { assert Argument(c, called, m, k).Failure?; }
  }

  /** A failing bean selection reaches the host unwrapped, with nothing stored. */
  lemma SelectionFailureIsNotWrapped(
    matcher: Context -> Option<RestMappingMatch>, c: Collaborators, writers: seq<Rest.WriterBean>,
    defaultWriters: seq<Rest.WriterBean>, write: (Rest.WriterBean, Context) -> Option<Throwable>,
    ctx: Context)
    requires matcher(ctx).Some?
    requires c.select(matcher(ctx).value.beanClass).Failure?
    ensures Rest.Execute(WithDefaultExecutor(matcher, c, writers, defaultWriters, write), ctx, None)
            == Outcome(ctx.Record(ExecutorCalled), Failure(c.select(matcher(ctx).value.beanClass).error))
  {
  }

  /** A matched request whose handler returns `v` and leaves the response incomplete
      and without content type, with a JSON-tagged writer registered: execute stores
      `v`, and render sets JSON and writes once with the first JSON-tagged writer. */
  lemma JsonRoundTrip(
    matcher: Context -> Option<RestMappingMatch>, c: Collaborators, writers: seq<Rest.WriterBean>,
    defaultWriters: seq<Rest.WriterBean>, write: (Rest.WriterBean, Context) -> Option<Throwable>,
    ctx: Context, k: nat)
    requires matcher(ctx).Some?
    requires var ran := ExecuteSpec(c, ctx.Record(ExecutorCalled), matcher(ctx).value);
             ran.result.Success? && !ran.ctx.responseComplete && ran.ctx.contentType.None?
    requires Rest.IsFirstTagged(writers, Rest.JsonContentType, k)
    ensures var lc := WithDefaultExecutor(matcher, c, writers, defaultWriters, write);
            var ran := ExecuteSpec(c, ctx.Record(ExecutorCalled), matcher(ctx).value);
            var e := Rest.Execute(lc, ctx, None);
            var r := Rest.Render(lc, e.ctx);
            && e.result.Success?
            && e.ctx.attributes[Rest.ResultKey] == ran.result.value
            && r.ctx.contentType == Some("application/json")
            && r.ctx.attributes == e.ctx.attributes
            && r.ctx.log == ran.ctx.log + [ResponseWritten(writers[k].beanClass)]
  {
  }
}

=== FILE: faces.dfy ===
/** The slice of the host Faces runtime the dispatch layer touches: the per-request
    context, the exceptions that cross the layer, and the "send 404 and complete the
    response" step that both lifecycles share.
 */
module Faces {
  import opened Wrappers

  /** A Java object reference as the dispatch layer sees it: opaque, possibly null. */
  datatype Value = Null | Ref(id: nat)

  /** The exceptions that cross the dispatch layer. Only their kind and, for the
      wrapping ones, their cause matter to the model. `IOException` stands for every
      `java.io.IOException`, subclasses such as `EOFException` included, since that is
      what a `catch (IOException ...)` clause catches; likewise `NamingException` stands
      for every `javax.naming.NamingException`, `NoInitialContextException` and
      `NameNotFoundException` included. `Thrown` is any other exception. */
  datatype Throwable =
    | IOException(message: string)
    | FacesException(cause: Throwable)
    | NullPointerException
    | NoSuchElementException
    | NamingException(message: string)
    | Thrown(className: string, message: string)  // any other exception a collaborator raises

  /** A reference to a host `Lifecycle` instance. */
  datatype LifecycleRef = LifecycleRef(name: string)

  datatype PhaseListener = PhaseListener(name: string)

  /** One registration call the host may make on a lifecycle. */
  datatype ListenerCall = AddListener(listener: PhaseListener) | RemoveListener(listener: PhaseListener)

  /** The status and message passed to `responseSendError`. */
  datatype SentError = SentError(status: int, message: string)

  /** Calls into collaborators, in the order they happened. */
  datatype Effect =
    | ErrorSendCalled(sent: SentError)         // `responseSendError` was called, whether or not it then threw
    | ExecutorCalled                           // the method executor ran
    | DefaultLifecycleLookup                   // the host lifecycle factory was asked for the default lifecycle
    | DefaultRendered(lifecycle: LifecycleRef) // the default lifecycle's render phase ran
    | ResponseWritten(writer: string)          // a response writer (by bean class) serialised the result

  /** The per-request Faces context: response state, the `FacesContext`'s own attribute
      map (not the request's attributes) and the effect log. */
  datatype Context = Context(
    responseComplete: bool,
    error: Option<SentError>,
    contentType: Option<string>,
    attributes: map<string, Value>,
    log: seq<Effect>)
  {
    function Record(e: Effect): Context {
      this.(log := log + [e])
    }
  }

  /** What a phase leaves behind: the context as it then stands, and either the
      returned value or the exception that escaped. */
  datatype Outcome<+T> = Outcome(ctx: Context, result: Result<T, Throwable>)

  const NotFoundStatus := 404

  /** Send 404 with `message` and mark the response complete; an `IOException` from
      sending is rethrown wrapped in a `FacesException`. `sendErrorThrows` is what the
      host's `responseSendError` throws, if anything. The send is attempted, and logged,
      on both paths; when it throws, the response is not marked complete. */
  function SendNotFound(ctx: Context, message: string, sendErrorThrows: Option<Throwable>): (r: Outcome<()>)
    ensures r.ctx.log == ctx.log + [ErrorSendCalled(SentError(404, message))]
    ensures sendErrorThrows.None? ==>
              && r.result.Success?
              && r.ctx.error == Some(SentError(404, message))
              && r.ctx.responseComplete
              && r.ctx.contentType == ctx.contentType
              && r.ctx.attributes == ctx.attributes
    ensures sendErrorThrows.Some? ==>
              && r.result.Failure?
              && r.ctx.responseComplete == ctx.responseComplete
              && r.ctx == ctx.Record(ErrorSendCalled(SentError(404, message)))
    ensures sendErrorThrows.Some? && sendErrorThrows.value.IOException? ==>
              r.result.error == FacesException(sendErrorThrows.value)
    ensures sendErrorThrows.Some? && !sendErrorThrows.value.IOException? ==>
              r.result.error == sendErrorThrows.value
  {
    var attempted := ctx.Record(ErrorSendCalled(SentError(NotFoundStatus, message)));
    match sendErrorThrows
    case None =>
      Outcome(attempted.(error := Some(SentError(NotFoundStatus, message)), responseComplete := true), Success(()))
    case Some(e) =>
      if e.IOException? then Outcome(attempted, Failure(FacesException(e))) else Outcome(attempted, Failure(e))
  }
}

=== FILE: rest_executor.dfy ===
/** The default REST method executor (`DefaultRestMethodExecutor`): select the handler
    bean, produce one argument per declared parameter in order, obtain the bean
    instance, invoke the handler. Everything after bean selection runs inside one
    `try` whose `catch (Throwable)` rethrows the failure wrapped in a `FacesException`;
    bean selection itself sits before the `try`, so its failure escapes unwrapped.
 */
module RestExecutor {
  import opened Wrappers
  import opened Faces

  /** One declared handler parameter: its type and its annotations. */
  datatype Parameter = Parameter(typeName: string, annotations: seq<string>)

  /** A handler method; `parameters` is in declaration order, so its length is the
      method's parameter count. */
  datatype HandlerMethod = HandlerMethod(name: string, parameters: seq<Parameter>)

  /** The parts of a REST mapping match the executor reads. */
  datatype RestMappingMatch = RestMappingMatch(beanClass: string, handler: HandlerMethod)

  /** A CDI `Instance` handle for the handler bean. */
  datatype Instance = Instance(beanClass: string)

  /** The executor's collaborators:
      - `select`: `CDI.current().select(beanClass, @Any)`;
      - `produce`: the REST parameter producer, given the parameter's type and annotations;
      - `get`: `Instance.get()`, which creates or looks up the bean;
      - `invoke`: `Method.invoke(target, args)`, failing with whatever that call throws.
        The handler it runs works on the live request context, so it returns the
        context as the handler left it. */
  datatype Collaborators = Collaborators(
    select: string -> Result<Instance, Throwable>,
    produce: (Context, RestMappingMatch, string, seq<string>) -> Result<Value, Throwable>,
    get: Instance -> Result<Value, Throwable>,
    invoke: (HandlerMethod, Value, seq<Value>, Context) -> Outcome<Value>)

  /** A collaborator call made by the executor. */
  datatype Call =
    | BeanSelected
    | Produced(index: nat)
    | InstanceObtained
    | Invoked(target: Value, args: seq<Value>)

  /** The producer's answer for parameter `i`. */
  function Argument(c: Collaborators, ctx: Context, m: RestMappingMatch, i: nat): Result<Value, Throwable>
    requires i < |m.handler.parameters|
  {
    var p := m.handler.parameters[i];
    c.produce(ctx, m, p.typeName, p.annotations)
  }

  /** Parameters `0 .. k-1` produce values and parameter `k` fails. */
  ghost predicate FirstFailure(c: Collaborators, ctx: Context, m: RestMappingMatch, k: nat) {
    && k < |m.handler.parameters|
    && Argument(c, ctx, m, k).Failure?
    && forall j :: 0 <= j < k ==> Argument(c, ctx, m, j).Success?
  }

  /** The reference definition of argument building: produce the first `n` arguments
      in ascending order, stopping at the first failure. */
  function Arguments(c: Collaborators, ctx: Context, m: RestMappingMatch, n: nat): (r: Result<seq<Value>, Throwable>)
    requires n <= |m.handler.parameters|
    ensures r.Success? <==> forall i :: 0 <= i < n ==> Argument(c, ctx, m, i).Success?
    ensures r.Success? ==> |r.value| == n && forall i :: 0 <= i < n ==> r.value[i] == Argument(c, ctx, m, i).value
    ensures r.Failure? ==> exists k: nat :: k < n && FirstFailure(c, ctx, m, k) && r.error == Argument(c, ctx, m, k).error
    decreases n
  {
    if n == 0 then Success([])
    else
      var prefix :- Arguments(c, ctx, m, n - 1);
      var v :- Argument(c, ctx, m, n - 1);
      Success(prefix + [v])
  }

  /** The body of the `try` block, before wrapping. Only the handler changes the
      context; producing arguments and obtaining the instance read it. */
  function Attempt(c: Collaborators, ctx: Context, m: RestMappingMatch, instance: Instance): Outcome<Value> {
    match Arguments(c, ctx, m, |m.handler.parameters|)
    case Failure(e) => Outcome(ctx, Failure(e))
    case Success(args) =>
      match c.get(instance)
      case Failure(e) => Outcome(ctx, Failure(e))
      case Success(target) => c.invoke(m.handler, target, args, ctx)
  }

  /** The `catch (Throwable t) { throw new FacesException(t); }` clause. */
  function Wrap(r: Result<Value, Throwable>): (w: Result<Value, Throwable>)
    ensures r.Success? ==> w == r
    ensures r.Failure? ==> w.Failure? && w.error.FacesException? && w.error.cause == r.error
  {
    match r
    case Success(v) => Success(v)
    case Failure(e) => Failure(FacesException(e))
  }

  /** The executor as a function of its collaborators' answers. */
  function ExecuteSpec(c: Collaborators, ctx: Context, m: RestMappingMatch): Outcome<Value> {
    match c.select(m.beanClass)
    case Failure(e) => Outcome(ctx, Failure(e))
    case Success(instance) =>
      var attempt := Attempt(c, ctx, m, instance);
      Outcome(attempt.ctx, Wrap(attempt.result))
  }

  /** The producer calls for parameters `0 .. n-1`, in order. */
  function ProduceCalls(n: nat): (calls: seq<Call>)
    ensures |calls| == n && forall i :: 0 <= i < n ==> calls[i] == Produced(i)
  {
    seq(n, (i: int) requires 0 <= i < n => Produced(i))
  }

  /** `execute`: returns the collaborator calls it made, in order, and its outcome. */
  method Execute(c: Collaborators, ctx: Context, m: RestMappingMatch) returns (calls: seq<Call>, r: Outcome<Value>)
    ensures r == ExecuteSpec(c, ctx, m)
    // Bean selection is outside the try: its failure escapes as it is, and nothing else runs.
    ensures c.select(m.beanClass).Failure? ==>
              r == Outcome(ctx, Failure(c.select(m.beanClass).error)) && calls == [BeanSelected]
    // Every failure after bean selection is one FacesException around the original cause.
    ensures c.select(m.beanClass).Success? && r.result.Failure? ==> r.result.error.FacesException?
    // A producer failure at k: parameters after k are never produced, nothing is invoked.
    ensures forall k: nat :: c.select(m.beanClass).Success? && FirstFailure(c, ctx, m, k) ==>
              && calls == [BeanSelected] + ProduceCalls(k + 1)
              && r == Outcome(ctx, Failure(FacesException(Argument(c, ctx, m, k).error)))
    // All parameters produced: exactly N producer calls precede obtaining the instance.
    ensures c.select(m.beanClass).Success? && Arguments(c, ctx, m, |m.handler.parameters|).Success? ==>
              var n := |m.handler.parameters|;
              && |calls| >= n + 2
              && calls[..n + 2] == [BeanSelected] + ProduceCalls(n) + [InstanceObtained]
              && (c.get(c.select(m.beanClass).value).Failure? ==>
                    |calls| == n + 2 && r == Outcome(ctx, Failure(FacesException(c.get(c.select(m.beanClass).value).error))))
    // Invocation: the arguments are exactly the produced values; the context and result
    // are the handler's, its failure wrapped.
    ensures c.select(m.beanClass).Success? && Arguments(c, ctx, m, |m.handler.parameters|).Success?
            && c.get(c.select(m.beanClass).value).Success? ==>
              var n := |m.handler.parameters|;
              var target := c.get(c.select(m.beanClass).value).value;
              && |calls| == n + 3
              && calls[n + 2].Invoked? && calls[n + 2].target == target
              && |calls[n + 2].args| == n
              && (forall i :: 0 <= i < n ==> calls[n + 2].args[i] == Argument(c, ctx, m, i).value)
              && var handled := c.invoke(m.handler, target, calls[n + 2].args, ctx);
                 r == Outcome(handled.ctx, Wrap(handled.result))
  {
    calls := [BeanSelected];
    var selected := c.select(m.beanClass);
    if selected.Failure? {
      r := Outcome(ctx, Failure(selected.error));
      return;
    }
    var n := |m.handler.parameters|;
    var args: seq<Value> := [];
    var i := 0;
    while i < n
      invariant 0 <= i <= n
      invariant |args| == i
      invariant forall j :: 0 <= j < i ==> Argument(c, ctx, m, j).Success? && args[j] == Argument(c, ctx, m, j).value
      invariant calls == [BeanSelected] + ProduceCalls(i)
    {
      calls := calls + [Produced(i)];
      assert calls == [BeanSelected] + ProduceCalls(i + 1);
      var produced := Argument(c, ctx, m, i);
      if produced.Failure? {
        assert FirstFailure(c, ctx, m, i);
        ghost var all := Arguments(c, ctx, m, n);
        assert all.Failure?;
        ghost var k: nat :| k < n && FirstFailure(c, ctx, m, k) && all.error == Argument(c, ctx, m, k).error;
        FirstFailureUnique(c, ctx, m, i);
        r := Outcome(ctx, Failure(FacesException(produced.error)));
        return;
      }
      args := args + [produced.value];
      i := i + 1;
    }
    assert Arguments(c, ctx, m, n).value == args;
    calls := calls + [InstanceObtained];
    var target := c.get(selected.value);
    if target.Failure? {
      r := Outcome(ctx, Failure(FacesException(target.error)));
      return;
    }
    calls := calls + [Invoked(target.value, args)];
    var handled := c.invoke(m.handler, target.value, args, ctx);
    r := Outcome(handled.ctx, Wrap(handled.result));
  }

  /** Only one parameter can be the first to fail. */
  lemma FirstFailureUnique(c: Collaborators, ctx: Context, m: RestMappingMatch, k: nat)
    requires FirstFailure(c, ctx, m, k)
    ensures forall k': nat :: FirstFailure(c, ctx, m, k') ==> k' == k
  {
    forall k': nat | FirstFailure(c, ctx, m, k')
      ensures k' == k
    {
      assert Argument(c, ctx, m, k).Failure? && Argument(c, ctx, m, k').Failure?;
    }
  }

  /** A handler without parameters is invoked with an empty argument sequence. */
  lemma ZeroParameterHandler(c: Collaborators, ctx: Context, m: RestMappingMatch)
    requires |m.handler.parameters| == 0
    requires c.select(m.beanClass).Success? && c.get(c.select(m.beanClass).value).Success?
    ensures var handled := c.invoke(m.handler, c.get(c.select(m.beanClass).value).value, [], ctx);
            ExecuteSpec(c, ctx, m) == Outcome(handled.ctx, Wrap(handled.result))
  {
  }
}

=== FILE: rest_lifecycle.dfy ===
/** The REST lifecycle (`com.manorrock.oyena.rest.RestLifecycle`): execute matches the
    request and runs the handler, storing its return value as a `FacesContext` attribute;
    render picks a response writer by content type and lets it serialise the result.
 */
module Rest {
  import opened Wrappers
  import opened Faces

  /** The attribute key under which execute stores the handler's return value:
      the lifecycle's package name followed by ".RestResult". */
  const ResultKey := "com.manorrock.oyena.rest.RestResult"
  const NotFoundMessage := "Unable to match request"
  const JsonContentType := "application/json"

  /** A `RestResponseWriter` bean: its class, and the value of its
      `@RestResponseWriterContentType` annotation if it carries one. */
  datatype WriterBean = WriterBean(beanClass: string, contentType: Option<string>)

  /** The lifecycle together with its injected collaborators. `M` is the matcher's
      match type, left abstract. The executor runs the handler on the live context,
      so it returns the context as the handler left it. `writers` is the container's
      answer to the unqualified writer lookup used for the tagged search, and
      `defaultWriters` its answer to the `@Default`-qualified lookup used as fallback;
      the model keeps the two independent. */
  datatype RestLifecycle<!M> = RestLifecycle(
    matcher: Context -> Option<M>,
    executor: (Context, M) -> Outcome<Value>,
    writers: seq<WriterBean>,
    defaultWriters: seq<WriterBean>,
    write: (WriterBean, Context) -> Option<Throwable>)

  /** Execute phase. No match: send 404 and complete the response. A match: run the
      executor once and store exactly its result under `ResultKey`; a failure of the
      executor escapes unchanged and nothing is stored. Beyond that one attribute the
      lifecycle adds nothing to what the executor left: in particular it does not
      complete the response. */
  function Execute<M>(lc: RestLifecycle<M>, ctx: Context, sendErrorThrows: Option<Throwable>): (r: Outcome<()>)
    ensures lc.matcher(ctx).None? ==> r == SendNotFound(ctx, NotFoundMessage, sendErrorThrows)
    ensures lc.matcher(ctx).None? && sendErrorThrows.None? ==>
              && r.result.Success?
              && r.ctx.error == Some(SentError(404, "Unable to match request"))
              && r.ctx.responseComplete
              && r.ctx.attributes == ctx.attributes
              && r.ctx.log == ctx.log + [ErrorSendCalled(SentError(404, "Unable to match request"))]
    ensures lc.matcher(ctx).None? && sendErrorThrows.Some? && sendErrorThrows.value.IOException? ==>
              r == Outcome(ctx.Record(ErrorSendCalled(SentError(404, "Unable to match request"))), Failure(FacesException(sendErrorThrows.value)))
    ensures lc.matcher(ctx).Some? ==>
              var ran := lc.executor(ctx.Record(ExecutorCalled), lc.matcher(ctx).value);
              && r.ctx.log == ran.ctx.log
              && r.ctx.responseComplete == ran.ctx.responseComplete
              && r.ctx.error == ran.ctx.error
              && r.ctx.contentType == ran.ctx.contentType
              && (ran.result.Success? ==>
                    && r.result.Success?
                    && ResultKey in r.ctx.attributes
                    && r.ctx.attributes[ResultKey] == ran.result.value
                    && r.ctx.attributes - {ResultKey} == ran.ctx.attributes - {ResultKey})
              && (ran.result.Failure? ==>
                    r.result == Failure(ran.result.error) && r.ctx.attributes == ran.ctx.attributes)
  {
    match lc.matcher(ctx)
    case Some(m) =>
      var ran := lc.executor(ctx.Record(ExecutorCalled), m);
      (match ran.result
       case Success(v) => Outcome(ran.ctx.(attributes := ran.ctx.attributes[ResultKey := v]), Success(()))
       case Failure(e) => Outcome(ran.ctx, Failure(e)))
    case None =>
      SendNotFound(ctx, NotFoundMessage, sendErrorThrows)
  }

  ghost predicate Tagged(w: WriterBean, contentType: string) {
    w.contentType == Some(contentType)
  }

  /** `k` is the position of the first writer tagged with `contentType`. */
  ghost predicate IsFirstTagged(ws: seq<WriterBean>, contentType: string, k: int) {
    && 0 <= k < |ws|
    && Tagged(ws[k], contentType)
    && forall j :: 0 <= j < k ==> !Tagged(ws[j], contentType)
  }

  /** Linear search, in enumeration order, for the first writer whose tag equals
      `contentType`; untagged writers never match. */
  function FindTagged(ws: seq<WriterBean>, contentType: string): (r: Option<nat>)
    ensures r.Some? ==> IsFirstTagged(ws, contentType, r.value)
    ensures r.None? ==> forall j :: 0 <= j < |ws| ==> !Tagged(ws[j], contentType)
  {
    if |ws| == 0 then None
    else if ws[0].contentType == Some(contentType) then Some(0)
    else
      match FindTagged(ws[1..], contentType)
      case Some(k) => assert ws[1..][k] == ws[k + 1]; Some(k + 1)
      case None => assert forall j :: 1 <= j < |ws| ==> ws[j] == ws[1..][j - 1]; None
  }

  /** Writer selection: the first writer tagged with exactly `contentType`; failing
      that, the first `@Default` writer; with no default writer the iterator's `next()`
      throws `NoSuchElementException`. */
  function GetResponseWriter<M>(lc: RestLifecycle<M>, contentType: string): (r: Result<WriterBean, Throwable>)
    ensures forall k :: IsFirstTagged(lc.writers, contentType, k) ==> r == Success(lc.writers[k])
    ensures (forall j :: 0 <= j < |lc.writers| ==> !Tagged(lc.writers[j], contentType)) ==>
              if |lc.defaultWriters| == 0 then r == Failure(NoSuchElementException)
              else r == Success(lc.defaultWriters[0])
  {
    match FindTagged(lc.writers, contentType)
    case Some(k) => Success(lc.writers[k])
    case None =>
      if |lc.defaultWriters| == 0 then Failure(NoSuchElementException) else Success(lc.defaultWriters[0])
  }

  /** Render phase. On a completed response: nothing at all. Otherwise: default the
      content type to JSON, select the writer for the (possibly defaulted) type, and
      let it write the response; a selection or write failure escapes unchanged. */
  function Render<M>(lc: RestLifecycle<M>, ctx: Context): (r: Outcome<()>)
    ensures ctx.responseComplete ==> r == Outcome(ctx, Success(()))
    ensures !ctx.responseComplete ==>
              && r.ctx.contentType == Some(if ctx.contentType.None? then "application/json" else ctx.contentType.value)
              && !r.ctx.responseComplete
              && r.ctx.error == ctx.error
              && r.ctx.attributes == ctx.attributes
    ensures !ctx.responseComplete ==>
              var w := GetResponseWriter(lc, r.ctx.contentType.value);
              && (w.Failure? ==> r.result == Failure(w.error) && r.ctx.log == ctx.log)
              && (w.Success? ==> r.ctx.log == ctx.log + [ResponseWritten(w.value.beanClass)])
              && (w.Success? && r.result.Failure? ==> Some(r.result.error) == lc.write(w.value, ctx.(contentType := r.ctx.contentType)))
              && (w.Success? && r.result.Success? ==> lc.write(w.value, ctx.(contentType := r.ctx.contentType)).None?)
  {
    if ctx.responseComplete then Outcome(ctx, Success(()))
    else
      var contentType := ctx.contentType.GetOr(JsonContentType);
      var typed := ctx.(contentType := Some(contentType));
      match GetResponseWriter(lc, contentType)
      case Failure(e) => Outcome(typed, Failure(e))
      case Success(w) =>
        var written := typed.Record(ResponseWritten(w.beanClass));
        match lc.write(w, typed)
        case None => Outcome(written, Success(()))
        case Some(e) => Outcome(written, Failure(e))
  }

  /** Registering a phase listener is ignored. */
  function AddPhaseListener<M>(lc: RestLifecycle<M>, listener: PhaseListener): (r: RestLifecycle<M>)
    ensures r == lc
  {
    lc
  }

  /** Removing a phase listener is ignored. */
  function RemovePhaseListener<M>(lc: RestLifecycle<M>, listener: PhaseListener): (r: RestLifecycle<M>)
    ensures r == lc
  {
    lc
  }

  /** The lifecycle reports no phase listeners. */
  function GetPhaseListeners<M>(lc: RestLifecycle<M>): (r: seq<PhaseListener>)
    ensures |r| == 0
  {
    []
  }

  /** The lifecycle after the host made `calls`, in order. */
  function ApplyListenerCalls<M>(lc: RestLifecycle<M>, calls: seq<ListenerCall>): RestLifecycle<M>
    decreases |calls|
  {
    if |calls| == 0 then lc
    else
      var next := match calls[0]
        case AddListener(l) => AddPhaseListener(lc, l)
        case RemoveListener(l) => RemovePhaseListener(lc, l);
      ApplyListenerCalls(next, calls[1..])
  }

  /** Whatever sequence of add/remove calls came first, the lifecycle is unchanged and
      still reports no listeners. */
  lemma {:induction false} ListenerCallsIgnored<M>(lc: RestLifecycle<M>, calls: seq<ListenerCall>)
    ensures ApplyListenerCalls(lc, calls) == lc
    ensures GetPhaseListeners(ApplyListenerCalls(lc, calls)) == []
    decreases |calls|
  {
    if |calls| > 0 {
      ListenerCallsIgnored(lc, calls[1..]);
    }
  }

  /** A handler that completed the response itself (a redirect, say) leaves nothing
      for render to do. */
  lemma HandlerCompletedResponseIsNotRendered<M>(lc: RestLifecycle<M>, ctx: Context)
    requires lc.matcher(ctx).Some?
    requires lc.executor(ctx.Record(ExecutorCalled), lc.matcher(ctx).value).ctx.responseComplete
    ensures var e := Execute(lc, ctx, None);
            Render(lc, e.ctx) == Outcome(e.ctx, Success(()))
  {
  }

  /** An unmatched request leaves a completed response, so the render phase that
      follows is a no-op: no content type, no writer, no write. */
  lemma UnmatchedRequestIsNotRendered<M>(lc: RestLifecycle<M>, ctx: Context)
    requires lc.matcher(ctx).None?
    ensures var e := Execute(lc, ctx, None);
            Render(lc, e.ctx) == Outcome(e.ctx, Success(()))
  {
  }

  /** Rendering a response a second time after it was completed writes nothing more. */
  lemma RenderTwiceOnCompleteIsNoop<M>(lc: RestLifecycle<M>, ctx: Context)
    requires ctx.responseComplete
    ensures Render(lc, Render(lc, ctx).ctx) == Outcome(ctx, Success(()))
  {
  }

  /** With no content type set and a JSON-tagged writer registered, render sets
      "application/json" and writes with the first JSON-tagged writer. */
  lemma DefaultsToJsonWriter<M>(lc: RestLifecycle<M>, ctx: Context, k: nat)
    requires !ctx.responseComplete && ctx.contentType.None?
    requires IsFirstTagged(lc.writers, JsonContentType, k)
    ensures Render(lc, ctx).ctx.contentType == Some(JsonContentType)
    ensures Render(lc, ctx).ctx.log == ctx.log + [ResponseWritten(lc.writers[k].beanClass)]
  {
  }

  /** A content type already set is kept and is the exact string writers are selected by. */
  lemma KeepsExplicitContentType<M>(lc: RestLifecycle<M>, ctx: Context)
    requires !ctx.responseComplete && ctx.contentType.Some?
    ensures Render(lc, ctx).ctx.contentType == ctx.contentType
    ensures GetResponseWriter(lc, ctx.contentType.value).Failure? ==>
              Render(lc, ctx).result == Failure(GetResponseWriter(lc, ctx.contentType.value).error)
    ensures GetResponseWriter(lc, ctx.contentType.value).Success? ==>
              Render(lc, ctx).ctx.log == ctx.log + [ResponseWritten(GetResponseWriter(lc, ctx.contentType.value).value.beanClass)]
  {
  }
}

=== FILE: wrappers.dfy ===
/** Option and Result, the two failure-carrying datatypes the model is written with.
    Result supports Dafny's `:-` so that a failing step ends a computation the way a
    thrown Java exception ends a block.
 */
module Wrappers {

  /** A value that may be absent: the model's stand-in for a Java reference that may be null. */
  datatype Option<+T> = None | Some(value: T) {

    /** The value, or `default` when absent. */
    function GetOr(default: T): T {
      match this
      case Some(v) => v
      case None => default
    }
  }

  /** Either a returned value or the failure that was raised instead. */
  datatype Result<+T, +E> = Success(value: T) | Failure(error: E) {

    predicate IsFailure() {
      Failure?
    }

    function PropagateFailure<U>(): Result<U, E>
      requires Failure?
    {
      Failure(error)
    }

    function Extract(): T
      requires Success?
    {
      value
    }
  }
}
